=== FILE: README.md ===
# chatpack-updater, modelled in Dafny

This project models the decision logic of chatpack-updater, a Rust tool that keeps a
MUSHclient sound-pack folder in step with a published hash manifest. It has two binaries:

- **The updater** (`src/main.rs`). It refuses to run outside a MUSHclient folder. It
  fetches the master manifest, hashes the local tree, compares the two, and sorts the
  comparison into new, removed, ignored and modified files. Then it prints the counts.
- **The manifest builder** (`src/bin/update-manifest.rs`). It bumps the
  `year.month.day.patch` version file, gathers the standard and custom ignore files and
  hashes the tree. Then it writes the manifest and, when run as a git pre-commit hook,
  stages both files.

The version value of `src/version.rs` is modelled completely. That covers parsing with
Rust's `trim`, `split('.')` and integer `parse` semantics, printing with `format!`, and
the date-driven `update`.

Modules, one per source file plus three helpers:

| module | file | models |
|---|---|---|
| `Results` | results.dfy | `Option`/`Result`; every `panic!`/`expect` becomes an `Err` |
| `Text` | text.dfy | `str::trim`, `str::split(char)`, `<iN as FromStr>`, `Display` for integers |
| `Paths` | paths.dfy | `PathBuf::push` of one component |
| `Versions` | versions.dfy | src/version.rs |
| `Updater` | updater.dfy | src/main.rs |
| `ManifestBuilder` | manifest_builder.dfy | src/bin/update-manifest.rs |

How the model is built:

- `i16` and `i8` are newtypes. `patch + 1` at 127 is the overflow error that a debug
  build panics on.
- The clock is an argument. `Local::now()` becomes a `Date` of chrono's `year()`,
  `month()` and `day()`. The casts `as i16` and `as i8` are written out as
  two's-complement wrap-around.
- `from_string` fails in Rust's own evaluation order. Field 0 is parsed before field 1
  is indexed, so `"x"` is an invalid year, not a missing month.
- `update(&mut self)` is the method `Versions.Update`. It has the same three field
  comparisons and the same `date_updated` flag. It works on an owned, unaliased value,
  so it takes the old value and returns the new one.
- The version file is the class `ManifestBuilder.TextFile`, a character buffer with a cursor.
  `seek`, `set_len` and `write_all` act on it as they act on a file. The proof that the
  file ends up holding exactly the new version string therefore depends on the rewind
  and the truncation.
- Everything that comes from outside is an argument of `Updater.Run` and
  `ManifestBuilder.Build`. That means the directory listing, the HTTP response, whether
  paths exist, the output of `create_hashes` and `compare_hashes`, the ignore-file walk,
  the executable name and the arguments. The external calls of a run are recorded in
  order, so ordering facts can be stated, such as "fetch before hashing" and "version
  file before hashing". `Updater.Run` returns its calls. The builder threads one
  append-only `ManifestBuilder.CallLog` object through its steps: each step appends a
  call at the point where it makes it, `UpdateVersionFile` (or `RewriteVersionFile`)
  the version write right after its `write_all`, and `HashAndPublish` the calls after
  it. `Build` promises that the log grows by `BuildCalls`, the version write first, so
  running the hashing step before the version step breaks its proof.

What the code does (and the model with it):

- The directory precondition only looks for the three marker entries. There is no
  directory-name match.
- The updater stops after printing the comparison counts. It downloads nothing.
- A failed directory listing is fatal, not an early return.
- `src/main.rs` declares its own constants (`chatpack`, `chatpack.ver`, …), not those of
  `src/constants.rs`, which the builder uses (`MUSHclient`, `erion-pack.ver`, …). Each
  module carries the constants of its own source file. The model keeps the ones of
  `src/main.rs` that the run uses: the manifest URL, the job count, and the recursion
  depth set in `main`. `ALGO` is used too, as an argument of `create_hashes`, but the
  model does not record it (see "Left out"). `TARGET_DIR` appears only in a message and
  in comments. `VERSION_FILENAME` and `MANIFEST_FILENAME` are declared and never used.
  Those three are left out.
- The builder writes the manifest next to the target directory, at
  `cwd/erion-pack.update-manifest`. The version file goes inside it, at
  `cwd/MUSHclient/erion-pack.ver`.

## Model

| member | source | states |
|---|---|---|
| `Paths.Child` | src/bin/update-manifest.rs:34 | `PathBuf::push` of one name: one more component at the end, every earlier component kept |
| `Text.LeadingWhitespace` | src/version.rs:18 | the count stays within the string, every counted character is whitespace, and the next one is not |
| `Text.TrailingWhitespace` | src/version.rs:18 | the count stays within the string, every counted character at the end is whitespace, and the one before them is not |
| `Text.TrimStart` | src/version.rs:18 | the result is a suffix of the input, everything dropped is whitespace, and the result does not start with whitespace |
| `Text.TrimEnd` | src/version.rs:18 | the result is a prefix of the input, everything dropped is whitespace, and the result does not end with whitespace |
| `Text.Trim` | src/version.rs:18-26 | the result is no longer than the input and neither starts nor ends with whitespace |
| `Text.TrimSlice` | src/version.rs:18-26 | the trimmed string is one slice of the input with only whitespace on either side of it |
| `Text.TrimUntrimmed` | src/version.rs:18-26 | a string with no whitespace at either end is its own trim |
| `Text.TrailingAfter` | src/version.rs:18 | counting trailing whitespace stops at a non-whitespace character |
| `Text.TrimEndAfter` | src/version.rs:18 | trailing whitespace is removed without reaching back past a non-whitespace character |
| `Text.Split` | src/version.rs:18 | there is at least one piece, no piece contains the separator, and joining the pieces with the separator gives the input back |
| `Text.SplitAppend` | src/version.rs:18 | splitting `a + sep + b` gives the pieces of `a` followed by the pieces of `b` |
| `Text.SplitWithoutSeparator` | src/version.rs:18 | a string without the separator splits into itself alone |
| `Text.SplitJoin` | src/version.rs:18 | splitting the join of separator-free pieces gives exactly those pieces back |
| `Text.DigitChar` | src/version.rs:75 | the character is a decimal digit whose value is the given number |
| `Text.NatToString` | src/version.rs:75 | the notation is non-empty, all digits, has the number as its value, and has no leading zero |
| `Text.IntToString` | src/version.rs:75 | the notation starts with a digit or `-`, ends with a digit, and has no `.` and no whitespace |
| `Text.ParseSigned` | src/version.rs:19-27 | a parsed value lies in the type's range; anything else is an error |
| `Text.ParseSignedIntToString` | src/version.rs:19-27 | parsing the printed form of an in-range number gives the number back |
| `Text.ParseSignedExamples` | src/version.rs:19-27 | a `+` sign and leading zeros are accepted; an empty string, a lone sign, inner whitespace and an out-of-range value are rejected |
| `Versions.WrapI16` | src/version.rs:35 | the result is congruent to the input modulo 2^16 and equals it when it is in i16 range |
| `Versions.WrapI8` | src/version.rs:36-37 | the result is congruent to the input modulo 2^8 and equals it when it is in i8 range |
| `Versions.Elements` | src/version.rs:18 | the trimmed input split on `.` has at least one element |
| `Versions.Field` | src/version.rs:19-27 | success means the trimmed element parses in range; failure is `MissingField` past the end and `InvalidField` otherwise |
| `Versions.FromElements` | src/version.rs:19-29 | success needs four elements, and year, month, day and patch are the parsed values of elements 0 to 3; the only errors are a missing field at index `|elements|` < 4, or an invalid field whose trimmed text does not parse in its type's range |
| `Versions.FromString` | src/version.rs:15-30 | success needs at least four elements after trimming and splitting; an overflow is never a parse error; the round trip with `ToString` is `FromStringToString` |
| `Versions.Fields` | src/version.rs:75 | the printed form has four fields |
| `Versions.ToString` | src/version.rs:74-76 | the four decimal fields joined by `.`; what that text is, and that it reads back, is stated by `ToStringFields` and `FromStringToString` |
| `Versions.ToStringFields` | src/version.rs:74-76 | the printed version splits on `.` into the four decimal fields, in the order year, month, day, patch, and has nothing to trim |
| `Versions.FieldOfPrinted` | src/version.rs:19-27 | a field holding a printed in-range number reads back as that number |
| `Versions.FromElementsOfFields` | src/version.rs:19-27 | four fields that each read back as an in-range number give the version of those four numbers |
| `Versions.FromElementsFields` | src/version.rs:19-29 | reading the four printed fields gives the version back |
| `Versions.FromElementsPrefix` | src/version.rs:19-28 | elements after the fourth do not change the result |
| `Versions.FromStringToString` | src/version.rs:15-30 | round trip: `from_string(to_string(v)) == v` for every version value |
| `Versions.FromStringExtraFields` | src/version.rs:18-28 | fields after the fourth are ignored whatever they hold: `from_string(to_string(v) + "." + extra) == v` |
| `Versions.New` | src/version.rs:32-40 | patch is 1, and the date fields are the supplied date as cast; each equals the date's field when in range |
| `Versions.Updated` | src/version.rs:55-72 | the date fields always end up equal to today's; on the stored date patch becomes patch + 1, with the other fields unchanged, and overflow at 127 is the only error; on any other date the result is today's date with patch 1 |
| `Versions.Update` | src/version.rs:43-73 | the field-by-field update with the `date_updated` flag computes exactly `Updated` |
| `Updater.FilesIn` | src/main.rs:105-111 | a bucket is no longer than the input; its content and order are stated by the lemmas below |
| `Updater.DifferingFiles` | src/main.rs:113-118 | the modified list is no longer than the input; its order, count and members are stated by the lemmas below |
| `Updater.FilesOf` | src/main.rs:105-111 | the files the results name, position by position |
| `Updater.BucketsPartition` | src/main.rs:105-111 | every result lands in exactly one bucket: the three buckets together hold each named file as often as the results do |
| `Updater.BucketsCount` | src/main.rs:105-111 | the lengths of the three buckets add up to the number of results |
| `Updater.FilesInPrefix` | src/main.rs:105-111 | pushing keeps order: the bucket of a prefix of the results is a prefix of the bucket |
| `Updater.FilesInPosition` | src/main.rs:105-111 | result `i` sits in its own bucket right after the files of the earlier results of that bucket |
| `Updater.DifferingFilesMembers` | src/main.rs:113-118 | a file is modified exactly when some `FileDiffers` names it |
| `Updater.DifferingFilesPrefix` | src/main.rs:113-118 | pushing keeps order: the modified list of a prefix of the results is a prefix of the modified list |
| `Updater.DifferingFilesPosition` | src/main.rs:113-118 | a `FileDiffers` result sits in the modified list right after the files of the earlier `FileDiffers` results |
| `Updater.DifferingFilesCount` | src/main.rs:113-122 | the modified count is the number of `FileDiffers` results |
| `Updater.AllMatchNoneModified` | src/main.rs:115 | `FileMatches` entries contribute nothing: when all match, nothing is modified |
| `Updater.MarkerPresent` | src/main.rs:45-54 | some marker, joined to the working directory, is among the listed entries; `FindMarker` is proved to compute it |
| `Updater.FindMarker` | src/main.rs:45-54 | the flag is raised exactly when one of the three markers, joined to the working directory, is among the entries |
| `Updater.SortResults` | src/main.rs:97-119 | the four buckets are exactly the added, removed and ignored files and the differing files, each in input order |
| `Updater.IsSuccess` | src/main.rs:71 | `StatusCode::is_success`: the status lies in 200 to 299 |
| `Updater.FetchedManifest` | src/main.rs:67-76 | a manifest is had exactly when the request was sent, the status is 2xx and the body parsed, and it is the body |
| `Updater.Run` | src/main.rs:29-123 | without a marker the run stops after the listing; otherwise the manifest is fetched first; a fetch failure stops the run before hashing; the hashing gets the empty ignore set, depth 10 and 2 jobs; a comparison error is fatal; the summary counts new, modified and removed files, not ignored ones |
| `ManifestBuilder.Resized` | src/bin/update-manifest.rs:82 | `set_len`: the new length, with the old characters kept and NULs beyond them |
| `ManifestBuilder.Overwrite` | src/bin/update-manifest.rs:92 | a write at the cursor puts the string there, keeps the characters before it (padding a gap with NULs) and keeps the characters after it |
| `ManifestBuilder.OverwriteEmpty` | src/bin/update-manifest.rs:92 | writing at the start of an empty file leaves exactly the string |
| `ManifestBuilder.TextFile.Create` | src/bin/update-manifest.rs:55 | `File::create`: an empty file with the cursor at 0 |
| `ManifestBuilder.TextFile.Open` | src/bin/update-manifest.rs:63 | opening puts the cursor at 0 and leaves the contents alone |
| `ManifestBuilder.TextFile.ReadToString` | src/bin/update-manifest.rs:65-70 | everything from the cursor to the end is read, and the cursor moves to the end |
| `ManifestBuilder.TextFile.Seek` | src/bin/update-manifest.rs:81 | the cursor moves to the offset |
| `ManifestBuilder.TextFile.SetLen` | src/bin/update-manifest.rs:82-85 | the contents are resized; the cursor does not move |
| `ManifestBuilder.TextFile.WriteAll` | src/bin/update-manifest.rs:92-95 | the contents are overwritten at the cursor, which moves past what was written |
| `ManifestBuilder.NextVersion` | src/bin/update-manifest.rs:54-79 | the chosen version always carries today's date; no file, or a file that is empty after trimming, gives a fresh version with patch 1 |
| `ManifestBuilder.NextVersionOfWritten` | src/bin/update-manifest.rs:76-79 | a file holding what the builder wrote reads back as that version and is updated |
| `ManifestBuilder.RebuildSameDay` | src/bin/update-manifest.rs:76-79 | a second build on the same day writes the same date with the next patch number |
| `ManifestBuilder.RewriteVersionFile` | src/bin/update-manifest.rs:61-95 | an existing file ends up holding exactly the new version string (rewound and truncated, not appended to), and the log grows by the one version write; a file that does not read as a version is left untouched, the log is unchanged, and the run fails |
| `ManifestBuilder.UpdateVersionFile` | src/bin/update-manifest.rs:44-95 | a missing file is created and holds today's fresh version; an existing one is rewritten; either way the version is `NextVersion` of the old contents, and the log grows by the version write exactly when the step succeeds |
| `ManifestBuilder.IgnoreFileList` | src/bin/update-manifest.rs:105-116 | the standard ignore file comes first and the custom one last; each is present exactly when it exists; the list has one entry per existing file and nothing else, so it is empty exactly when neither exists |
| `ManifestBuilder.IgnoreFiles` | src/bin/update-manifest.rs:110-116 | the two conditional pushes build exactly `IgnoreFileList` |
| `ManifestBuilder.IgnoreSet` | src/bin/update-manifest.rs:105-120 | the set handed to the hashing is empty unless an ignore file was loaded, and then what the walk found |
| `ManifestBuilder.IsGitHook` | src/bin/update-manifest.rs:161 | the run is a hook run when the executable is named `pre-commit` or some argument is |
| `ManifestBuilder.CallLog.Record` | src/bin/update-manifest.rs:92-172 | a call is appended after the calls made before it, and nothing else changes |
| `ManifestBuilder.PublishCalls` | src/bin/update-manifest.rs:97-182 | the calls after the version step, none of which writes the version file: the ignore walk when an ignore file exists, the hashing, the manifest write, the two `git add`s in a hook run |
| `ManifestBuilder.BuildCalls` | src/bin/update-manifest.rs:40-182 | the version write followed by `PublishCalls`; its order is stated by `BuildCallsOrder` |
| `ManifestBuilder.BuildCallsList` | src/bin/update-manifest.rs:40-182 | the calls of a build spelled out: the version write, the ignore walk when an ignore file exists, the hashing, the manifest write, then the two `git add`s in a hook run |
| `ManifestBuilder.BuildCallsOrder` | src/bin/update-manifest.rs:40-41 | the version file is written first and only once; the one hashing of the target directory comes after it; the manifest write comes right after the hashing; the ignore set is empty when neither ignore file exists |
| `ManifestBuilder.BuildCallsHook` | src/bin/update-manifest.rs:161-172 | the version file and the manifest are each staged with `git add` exactly in a hook run |
| `ManifestBuilder.HashAndPublish` | src/bin/update-manifest.rs:97-182 | the log grows by exactly `PublishCalls`, with the hook test "the executable is named `pre-commit` or some argument is"; a missing executable name stops the run after the manifest is written |
| `ManifestBuilder.Build` | src/bin/update-manifest.rs:30-182 | without the target directory nothing happens (no file, log unchanged); a bad version file stops the run with the log unchanged; otherwise the file holds the new version string and the log grows by `BuildCalls`, so the version write comes before the hashing |

## Left out

- `Versions.Update`, `Versions.Updated`: a same-day update at patch 127 is modelled as
  the overflow panic of a debug build. A release build would wrap the patch to -128.
- `Versions.Update`: `&mut self` is modelled as a value in and a value out. Rust's
  ownership rules out aliasing of the mutated struct, so nothing is lost.
- `create_hashes`, `compare_hashes` and BLAKE2 hashing: external crate. Their results are
  arguments, so the depth bound, worker count and ignore matching of the walk are not
  modelled. The recorded `CreateHashes` call keeps the root, the ignore set, the depth
  and the job count. It drops the hash algorithm (`ALGO`, BLAKE2), the boolean flag
  passed after the depth, and the two output streams (src/main.rs:82-90,
  src/bin/update-manifest.rs:122-130). The recorded `CompareHashes` call keeps the two
  manifests and drops the `""` prefix argument (src/main.rs:92).
- HTTP through `reqwest` and JSON through `serde_json`: transport and serialization. The
  response is a status plus an optional parsed body. The manifest write records the map
  written, not its JSON text.
- `utils::ignored_files` (the walk over the ignore files with `gitignore`): its result is
  an argument of `Build`. As shown the file does not compile, so its body is not part of
  this model. A failing `gitignore::File::new(..).unwrap()` is not modelled.
- Filesystem errors other than a failed directory listing are not modelled: a failing
  `current_dir`, `File::create`, `open`, `read_to_string` (including invalid UTF-8),
  `seek`, `set_len`, `write_all` or `flush`. The `TextFile` operations always succeed.
- `current_exe()` failing and a file name without one are the same `None` executable
  name, and the same fatal error.
- `git add` process spawning (src/bin/update-manifest.rs:163-178): only the attempt is
  recorded. Its exit status and the message printed on failure are left out.
- All `println!` messages, including "Creating initial" versus "Rebuilding" for the
  manifest.
- Downloading changed files, percent-encoding and self-replacement do not appear in the
  source files modelled here, so they are not modelled.
- `src/lib.rs` and `src/constants.rs` hold declarations only. Their constants appear
  where a modelled file uses them.

=== FILE: manifest_builder.dfy ===
/** The manifest builder of src/bin/update-manifest.rs: bump the version file
    under the target directory, gather the ignore files, hash the tree, write
    the manifest, and stage both files in git when run as a pre-commit hook.

    The version file is a `TextFile`, a character buffer with a cursor.
    Whether paths exist, what the ignore-file walk and `create_hashes` return,
    the executable's file name and the arguments are arguments of `Build`,
    which appends the external calls it makes, in order, to a `CallLog`. */
module ManifestBuilder {
  import opened Results
  import opened Text
  import opened Paths
  import opened Versions

  /** The constants of src/constants.rs that the builder imports. */
  const TargetDir := "MUSHclient"
  const VersionFilename := "erion-pack.ver"
  const ManifestFilename := "erion-pack.update-manifest"
  const StandardIgnoreFilename := "erion-pack-standard.update-ignore"
  const CustomIgnoreFilename := "erion-pack-custom.update-ignore"
  const Jobs := 2
  const MaxRecursion := 10

  /** The file name and argument that mark a run as a git pre-commit hook. */
  const HookName := "pre-commit"

  /** A hash manifest: relative path to hash. */
  type Manifest = map<string, string>

  /** `contents` with `n` positions: cut short, or extended with NULs, as `File::set_len` does. */
  function Resized(contents: string, n: nat): (r: string)
    ensures |r| == n
    ensures forall k :: 0 <= k < n ==> r[k] == if k < |contents| then contents[k] else '\0'
  {
    if n <= |contents| then contents[..n] else contents + seq(n - |contents|, _ => '\0')
  }

  /** What a write of `s` at offset `pos` leaves in a file holding `contents`:
      the characters before `pos` kept (a gap filled with NULs), `s` at `pos`, and
      whatever lay beyond the end of `s` kept. */
  function Overwrite(contents: string, pos: nat, s: string): (r: string)
    ensures |r| == if pos + |s| <= |contents| then |contents| else pos + |s|
    ensures r[pos..pos + |s|] == s
    ensures forall k :: 0 <= k < pos ==> r[k] == if k < |contents| then contents[k] else '\0'
    ensures forall k :: pos + |s| <= k < |r| ==> r[k] == contents[k]
  {
    var padded := if pos <= |contents| then contents else Resized(contents, pos);
    var tail := if pos + |s| < |padded| then padded[pos + |s|..] else [];
    padded[..pos] + s + tail
  }

  /** Writing at the start of an empty file leaves exactly what was written. */
  lemma OverwriteEmpty(s: string)
    ensures Overwrite([], 0, s) == s
  {
    var r := Overwrite([], 0, s);
    assert r == r[0..|s|];
  }

  /** An open file: its contents and the cursor. */
  class TextFile {
    var contents: string
    var pos: nat

    /** `File::create`: a new, empty file, the cursor at its start. */
    constructor Create()
      ensures contents == [] && pos == 0
    {
      contents, pos := [], 0;
    }

    /** `OpenOptions::new().read(true).write(true).open`: the cursor at the start, contents untouched. */
    method Open()
      modifies this`pos
      ensures pos == 0
    {
      pos := 0;
    }

    /** `read_to_string`: everything from the cursor to the end; the cursor moves to the end. */
    method ReadToString() returns (s: string)
      modifies this`pos
      ensures s == if old(pos) < |contents| then contents[old(pos)..] else []
      ensures pos == if old(pos) < |contents| then |contents| else old(pos)
    {
      if pos < |contents| {
        s := contents[pos..];
        pos := |contents|;
      } else {
        s := [];
      }
    }

    /** `seek(SeekFrom::Start(offset))`. */
    method Seek(offset: nat)
      modifies this`pos
      ensures pos == offset
    {
      pos := offset;
    }

    /** `set_len(n)`: the cursor does not move. */
    method SetLen(n: nat)
      modifies this`contents
      ensures contents == Resized(old(contents), n)
    {
      contents := Resized(contents, n);
    }

    /** `write_all(s)` at the cursor, which moves past what was written. */
    method WriteAll(s: string)
      modifies this
      ensures contents == Overwrite(old(contents), old(pos), s)
      ensures pos == old(pos) + |s|
    {
      contents := Overwrite(contents, pos, s);
      pos := pos + |s|;
    }
  }

  /** The version the builder writes out, given the version file's contents,
      if there is one: a fresh date-based version when there is no file or the
      file holds only whitespace, and otherwise the parsed version updated. */
  function NextVersion(existing: Option<string>, today: Date): (r: Result<Version, VersionError>)
    ensures r.Ok? ==> SameDate(r.value, today)
    ensures existing.None? || Trim(existing.value) == [] ==> r == Ok(New(today))
  {
    match existing
    case None => Ok(New(today))
    case Some(text) =>
      var trimmed := Trim(text);
      if trimmed == [] then Ok(New(today))
      else
        match FromString(trimmed)
        case Err(e) => Err(e)
        case Ok(v) => Updated(v, today)
  }

  /** A file holding what the builder wrote is read back as that version and updated. */
  lemma NextVersionOfWritten(v: Version, today: Date)
    ensures NextVersion(Some(ToString(v)), today) == Updated(v, today)
  {
    ToStringFields(v);
    FromStringToString(v);
  }

  /** Two builds on the same day: the second writes the next patch number of the same date. */
  lemma RebuildSameDay(existing: Option<string>, today: Date, v: Version)
    requires NextVersion(existing, today) == Ok(v)
    requires v.patch as int < I8Max
    ensures NextVersion(Some(ToString(v)), today) == Ok(v.(patch := v.patch + 1))
  {
    NextVersionOfWritten(v, today);
  }

  /** The version step on an existing file: read it, decide the version,
      rewind and truncate it, and write the version's string. When its contents
      cannot be read as a version, the run stops with the file untouched. */
  method RewriteVersionFile(file: TextFile, path: Path, today: Date, log: CallLog)
    returns (r: Result<Version, VersionError>)
    modifies file, log
    ensures r == NextVersion(Some(old(file.contents)), today)
    ensures r.Ok? ==> file.contents == ToString(r.value) && log.calls == old(log.calls) + [WriteVersion(path)]
    ensures r.Err? ==> file.contents == old(file.contents) && log.calls == old(log.calls)
  {
    file.Open();
    var strVer := file.ReadToString();
    assert strVer == old(file.contents);
    strVer := Trim(strVer);
    var version: Version;
    if strVer == [] {
      version := New(today);
    } else {
      match FromString(strVer) {
        case Err(e) =>
          return Err(e);
        case Ok(parsed) =>
          var updated := Update(parsed, today);
          if updated.Err? {
            return Err(updated.error);
          }
          version := updated.value;
      }
    }
    file.Seek(0);
    file.SetLen(0);
    assert file.contents == [];
    file.WriteAll(ToString(version));
    log.Record(WriteVersion(path));
    OverwriteEmpty(ToString(version));
    r := Ok(version);
  }

  /** The version step: create the version file when there is none, write it
      with today's version, or rewrite the existing one. The write of the file
      at `path` goes into `log` where it is made, and only when the step succeeds. */
  method UpdateVersionFile(existing: TextFile?, path: Path, today: Date, log: CallLog)
    returns (file: TextFile, r: Result<Version, VersionError>)
    modifies existing, log
    ensures existing == null ==> fresh(file)
    ensures existing != null ==> file == existing
    ensures r == NextVersion(if existing == null then None else Some(old(existing.contents)), today)
    ensures r.Ok? ==> file.contents == ToString(r.value) && log.calls == old(log.calls) + [WriteVersion(path)]
    ensures r.Err? ==> existing != null && existing.contents == old(existing.contents) && log.calls == old(log.calls)
  {
    if existing == null {
      file := new TextFile.Create();
      var version := New(today);
      file.WriteAll(ToString(version));
      log.Record(WriteVersion(path));
      OverwriteEmpty(ToString(version));
      r := Ok(version);
    } else {
      file := existing;
      r := RewriteVersionFile(file, path, today, log);
    }
  }

  /** The ignore files to load, in order: the standard one, then the custom
      one, each only if it exists. */
  function IgnoreFileList(cpPath: Path, standardExists: bool, customExists: bool): (ignoreFiles: seq<Path>)
    ensures |ignoreFiles| == (if standardExists then 1 else 0) + (if customExists then 1 else 0)
    ensures Child(cpPath, StandardIgnoreFilename) in ignoreFiles <==> standardExists
    ensures Child(cpPath, CustomIgnoreFilename) in ignoreFiles <==> customExists
    ensures standardExists ==> ignoreFiles[0] == Child(cpPath, StandardIgnoreFilename)
    ensures customExists ==> ignoreFiles[|ignoreFiles| - 1] == Child(cpPath, CustomIgnoreFilename)
    ensures ignoreFiles == [] <==> !standardExists && !customExists
  {
    (if standardExists then [Child(cpPath, StandardIgnoreFilename)] else [])
    + (if customExists then [Child(cpPath, CustomIgnoreFilename)] else [])
  }

  /** The `push`es that build `ignore_files`. */
  method IgnoreFiles(cpPath: Path, standardExists: bool, customExists: bool) returns (ignoreFiles: seq<Path>)
    ensures ignoreFiles == IgnoreFileList(cpPath, standardExists, customExists)
  {
    ignoreFiles := [];
    if standardExists {
      ignoreFiles := ignoreFiles + [Child(cpPath, StandardIgnoreFilename)];
    }
    if customExists {
      ignoreFiles := ignoreFiles + [Child(cpPath, CustomIgnoreFilename)];
    }
  }

  /** The set handed to `create_hashes`: empty unless some ignore file was
      loaded, and then what the walk over them found. */
  function IgnoreSet(ignoreFiles: seq<Path>, walkIgnored: set<string>): set<string> {
    if ignoreFiles == [] then {} else walkIgnored
  }

  /** Whether the run is a git pre-commit hook: the executable is named
      `pre-commit`, or some argument is. */
  predicate IsGitHook(exeName: string, args: seq<string>) {
    exeName == HookName || HookName in args
  }

  /** The external calls a build makes. */
  datatype Call =
    | WriteVersion(path: Path)
    | FindIgnored(root: Path, ignoreFiles: seq<Path>)
    | CreateHashes(root: Path, ignores: set<string>, maxRecursion: nat, jobs: nat)
    | WriteManifest(path: Path, manifest: Manifest)
    | GitAdd(path: Path)

  /** The external calls of a run so far, in the order they were made; each
      step appends the calls it makes as it makes them. */
  class CallLog {
    var calls: seq<Call>

    /** Record one call, after those made before it. */
    method Record(c: Call)
      modifies this
      ensures calls == old(calls) + [c]
    {
      calls := calls + [c];
    }
  }

  /** The panics of the builder that the model keeps. */
  datatype Fatal = BadVersionFile(error: VersionError) | NoExecutableName

  /** How a build ends: no target directory (the early return), a fatal error, or done. */
  datatype Outcome = NoTargetDir | Failed(reason: Fatal) | Built(version: Version)

  /** The calls made after the version step, in order: the walk over the
      ignore files if any was loaded, the hashing, the manifest write, and the
      two `git add`s when run as a hook. */
  function PublishCalls(cwd: Path, standardExists: bool, customExists: bool, walkIgnored: set<string>,
                        hashes: Manifest, hook: bool): (calls: seq<Call>)
    ensures forall i :: 0 <= i < |calls| ==> !calls[i].WriteVersion?
  {
    var cpPath := Child(cwd, TargetDir);
    var ignoreFiles := IgnoreFileList(cpPath, standardExists, customExists);
    (if ignoreFiles == [] then [] else [FindIgnored(cpPath, ignoreFiles)])
    + [CreateHashes(cpPath, IgnoreSet(ignoreFiles, walkIgnored), MaxRecursion, Jobs),
       WriteManifest(Child(cwd, ManifestFilename), hashes)]
    + (if hook then [GitAdd(Child(cpPath, VersionFilename)), GitAdd(Child(cwd, ManifestFilename))] else [])
  }

  /** The calls of a build that got past the version step: the version write,
      then the calls after it. */
  function BuildCalls(cwd: Path, standardExists: bool, customExists: bool, walkIgnored: set<string>,
                      hashes: Manifest, hook: bool): seq<Call>
  {
    [WriteVersion(Child(Child(cwd, TargetDir), VersionFilename))]
    + PublishCalls(cwd, standardExists, customExists, walkIgnored, hashes, hook)
  }

  /** The calls of a build spelled out: the version write, the walk when an
      ignore file exists, the hashing, the manifest write, and the `git add`s. */
  lemma BuildCallsList(cwd: Path, standardExists: bool, customExists: bool, walkIgnored: set<string>,
                       hashes: Manifest, hook: bool)
    ensures var cpPath := Child(cwd, TargetDir);
            var ignoreFiles := IgnoreFileList(cpPath, standardExists, customExists);
            var write := WriteVersion(Child(cpPath, VersionFilename));
            var hashing := CreateHashes(cpPath, IgnoreSet(ignoreFiles, walkIgnored), MaxRecursion, Jobs);
            var manifest := WriteManifest(Child(cwd, ManifestFilename), hashes);
            var head := if ignoreFiles == [] then [write, hashing, manifest]
                        else [write, FindIgnored(cpPath, ignoreFiles), hashing, manifest];
            BuildCalls(cwd, standardExists, customExists, walkIgnored, hashes, hook)
            == if hook then head + [GitAdd(Child(cpPath, VersionFilename)), GitAdd(Child(cwd, ManifestFilename))]
               else head
  {
  }

  /** The version file is written first, before anything is hashed, so the
      hashing sees the new version; the hashing comes before the manifest is
      written; the ignore set is empty when neither ignore file exists. */
  lemma BuildCallsOrder(cwd: Path, standardExists: bool, customExists: bool, walkIgnored: set<string>,
                        hashes: Manifest, hook: bool)
    ensures var calls := BuildCalls(cwd, standardExists, customExists, walkIgnored, hashes, hook);
            var cpPath := Child(cwd, TargetDir);
            var h := if standardExists || customExists then 2 else 1;
            calls[0] == WriteVersion(Child(cpPath, VersionFilename))
            && (forall i :: 0 < i < |calls| ==> !calls[i].WriteVersion?)
            && |calls| > h + 1 && calls[h].CreateHashes? && calls[h].root == cpPath
            && calls[h + 1] == WriteManifest(Child(cwd, ManifestFilename), hashes)
            && (!standardExists && !customExists ==> calls[h].ignores == {})
            && (forall i :: 0 <= i < |calls| && calls[i].CreateHashes? ==> i == h)
  {
    var cpPath := Child(cwd, TargetDir);
    var ignoreFiles := IgnoreFileList(cpPath, standardExists, customExists);
    var walk := if ignoreFiles == [] then [] else [FindIgnored(cpPath, ignoreFiles)];
    var hashing := CreateHashes(cpPath, IgnoreSet(ignoreFiles, walkIgnored), MaxRecursion, Jobs);
    var manifest := WriteManifest(Child(cwd, ManifestFilename), hashes);
    var adds := if hook then [GitAdd(Child(cpPath, VersionFilename)), GitAdd(Child(cwd, ManifestFilename))] else [];
    var rest := PublishCalls(cwd, standardExists, customExists, walkIgnored, hashes, hook);
    var calls := BuildCalls(cwd, standardExists, customExists, walkIgnored, hashes, hook);
    assert rest == walk + [hashing, manifest] + adds;
    assert calls == [WriteVersion(Child(cpPath, VersionFilename))] + rest;
    var h := |walk| + 1;
    assert calls[h] == hashing && calls[h + 1] == manifest;
    forall i | 0 <= i < |calls| && i != h
      ensures !calls[i].CreateHashes?
    {
      if i < h {
        assert i == 0 || calls[i] == walk[i - 1];
      } else if i > h + 1 {
        assert calls[i] == adds[i - h - 2];
      }
    }
  }

  /** The two files are staged exactly in a hook run. */
  lemma BuildCallsHook(cwd: Path, standardExists: bool, customExists: bool, walkIgnored: set<string>,
                       hashes: Manifest, hook: bool)
    ensures var calls := BuildCalls(cwd, standardExists, customExists, walkIgnored, hashes, hook);
            var cpPath := Child(cwd, TargetDir);
            (GitAdd(Child(cpPath, VersionFilename)) in calls <==> hook)
            && (GitAdd(Child(cwd, ManifestFilename)) in calls <==> hook)
  {
    BuildCallsList(cwd, standardExists, customExists, walkIgnored, hashes, hook);
  }

  /** Everything after the version step: gather the ignore files, hash,
      write the manifest, find the executable's name and stage the two files
      when run as a hook. `exeKnown` is false when the name cannot be had, which
      stops the run after the manifest is written. */
  method HashAndPublish(cwd: Path, standardExists: bool, customExists: bool, walkIgnored: set<string>,
                        hashes: Manifest, exeName: Option<string>, args: seq<string>, log: CallLog)
    returns (exeKnown: bool)
    modifies log
    ensures exeKnown == exeName.Some?
    ensures log.calls == old(log.calls) + PublishCalls(cwd, standardExists, customExists, walkIgnored, hashes,
                                                       exeName.Some? && IsGitHook(exeName.value, args))
  {
    var cpPath := Child(cwd, TargetDir);
    var cpVersionPath := Child(cpPath, VersionFilename);
    var cpManifestPath := Child(cwd, ManifestFilename);
    var ignores: set<string> := {};
    var ignoreFiles := IgnoreFiles(cpPath, standardExists, customExists);
    if ignoreFiles != [] {
      log.Record(FindIgnored(cpPath, ignoreFiles));
      ignores := ignores + walkIgnored;
    }
    log.Record(CreateHashes(cpPath, ignores, MaxRecursion, Jobs));
    log.Record(WriteManifest(cpManifestPath, hashes));
    assert ignores == IgnoreSet(ignoreFiles, walkIgnored);
    assert log.calls == old(log.calls) + PublishCalls(cwd, standardExists, customExists, walkIgnored, hashes, false);
    if exeName.None? {
      return false;
    }
    if IsGitHook(exeName.value, args) {
      log.Record(GitAdd(cpVersionPath));
      log.Record(GitAdd(cpManifestPath));
    }
    exeKnown := true;
  }

  /** The contents of the version file, if there is one. */
  function Existing(f: TextFile?): Option<string>
    reads f
  {
    if f == null then None else Some(f.contents)
  }

  /** `main` of src/bin/update-manifest.rs. `versionFile` is the existing
      version file, `null` when there is none; `walkIgnored` is what the walk
      over the loaded ignore files finds; `hashes` is what `create_hashes`
      returns; `exeName` is the executable's file name, `None` when it cannot
      be had. */
  method Build(cwd: Path, cpExists: bool, versionFile: TextFile?, standardExists: bool, customExists: bool,
               walkIgnored: set<string>, hashes: Manifest, exeName: Option<string>, args: seq<string>, today: Date,
               log: CallLog)
    returns (outcome: Outcome, file: TextFile?)
    modifies versionFile, log
    ensures !cpExists ==> outcome == NoTargetDir && file == null && log.calls == old(log.calls)
    ensures !cpExists && versionFile != null ==> versionFile.contents == old(versionFile.contents)
    ensures cpExists ==> file != null && (versionFile != null ==> file == versionFile) && (versionFile == null ==> fresh(file))
    ensures cpExists && NextVersion(old(Existing(versionFile)), today).Err? ==>
              outcome == Failed(BadVersionFile(NextVersion(old(Existing(versionFile)), today).error))
              && log.calls == old(log.calls)
    ensures cpExists && NextVersion(old(Existing(versionFile)), today).Ok? ==>
              file != null && file.contents == ToString(NextVersion(old(Existing(versionFile)), today).value)
              && outcome == (if exeName.Some? then Built(NextVersion(old(Existing(versionFile)), today).value)
                             else Failed(NoExecutableName))
              && log.calls == old(log.calls) + BuildCalls(cwd, standardExists, customExists, walkIgnored, hashes,
                                                          exeName.Some? && IsGitHook(exeName.value, args))
  {
    if !cpExists {
      return NoTargetDir, null;
    }
    var cpPath := Child(cwd, TargetDir);
    ghost var before := log.calls;
    var r;
    file, r := UpdateVersionFile(versionFile, Child(cpPath, VersionFilename), today, log);
    if r.Err? {
      return Failed(BadVersionFile(r.error)), file;
    }
    ghost var written := file.contents;
    var exeKnown := HashAndPublish(cwd, standardExists, customExists, walkIgnored, hashes, exeName, args, log);
    assert file.contents == written;
    ghost var hook := exeName.Some? && IsGitHook(exeName.value, args);
    assert log.calls == before + BuildCalls(cwd, standardExists, customExists, walkIgnored, hashes, hook) by {
      var w := [WriteVersion(Child(cpPath, VersionFilename))];
      var rest := PublishCalls(cwd, standardExists, customExists, walkIgnored, hashes, hook);
      assert log.calls == (before + w) + rest;
      assert (before + w) + rest == before + (w + rest);
    }
    outcome := if exeKnown then Built(r.value) else Failed(NoExecutableName);
  }
}

=== FILE: paths.dfy ===
/** Filesystem paths as the two binaries build them with `PathBuf::push`. */
module Paths {

  /** A path as its sequence of components; `PathBuf` equality compares components. */
  type Path = seq<string>

  /** `PathBuf::push` of a relative, single-component name: one more component
      at the end, everything before it kept. */
  function Child(dir: Path, name: string): (p: Path)
    ensures |p| == |dir| + 1 && p[..|dir|] == dir && p[|dir|] == name
  {
    dir + [name]
  }
}

=== FILE: results.dfy ===
/** Option and Result, the failure-compatible wrappers the model uses for Rust's
    `Option`, `Result` and for every `panic!`/`expect` of the source. */
module Results {

  datatype Option<+T> = None | Some(value: T)

  datatype Result<+T, +E> = Ok(value: T) | Err(error: E) {

    predicate IsFailure() {
      Err?
    }

    function PropagateFailure<U>(): Result<U, E>
      requires Err?
    {
      Err(error)
    }

    function Extract(): T
      requires Ok?
    {
      value
    }
  }
}

=== FILE: text.dfy ===
/** The pieces of Rust's string library that `Version::from_string` and
    `Version::to_string` rely on: `str::trim`, `str::split` on a character,
    integer parsing (`<iN as FromStr>::from_str`) and decimal formatting
    (`Display` for signed integers). Strings are sequences of Unicode scalar
    values, as Rust's `char`s are. */
module Text {
  import opened Results

  /** `char::is_whitespace`: the characters with the Unicode White_Space property. */
  predicate IsWhitespace(c: char) {
    ('\U{9}' <= c <= '\U{D}') || c == ' ' || c == '\U{85}' || c == '\U{A0}' || c == '\U{1680}'
    || ('\U{2000}' <= c <= '\U{200A}') || c == '\U{2028}' || c == '\U{2029}' || c == '\U{202F}'
    || c == '\U{205F}' || c == '\U{3000}'
  }

  predicate AllWhitespace(s: string) {
    forall k :: 0 <= k < |s| ==> IsWhitespace(s[k])
  }

  /** The number of whitespace characters `s` starts with. */
  function LeadingWhitespace(s: string): (n: nat)
    ensures n <= |s|
    ensures forall k :: 0 <= k < n ==> IsWhitespace(s[k])
    ensures n < |s| ==> !IsWhitespace(s[n])
    decreases |s|
  {
    if s != [] && IsWhitespace(s[0]) then 1 + LeadingWhitespace(s[1..]) else 0
  }

  /** The number of whitespace characters `s` ends with. */
  function TrailingWhitespace(s: string): (n: nat)
    ensures n <= |s|
    ensures forall k :: |s| - n <= k < |s| ==> IsWhitespace(s[k])
    ensures n < |s| ==> !IsWhitespace(s[|s| - n - 1])
    decreases |s|
  {
    if s != [] && IsWhitespace(s[|s| - 1]) then 1 + TrailingWhitespace(s[..|s| - 1]) else 0
  }

  /** `str::trim_start`: the suffix left after dropping the leading whitespace. */
  function TrimStart(s: string): (r: string)
    ensures |r| <= |s| && r == s[|s| - |r|..]
    ensures AllWhitespace(s[..|s| - |r|])
    ensures r != [] ==> !IsWhitespace(r[0])
  {
    s[LeadingWhitespace(s)..]
  }

  /** `str::trim_end`: the prefix left after dropping the trailing whitespace. */
  function TrimEnd(s: string): (r: string)
    ensures |r| <= |s| && r == s[..|r|]
    ensures AllWhitespace(s[|r|..])
    ensures r != [] ==> !IsWhitespace(r[|r| - 1])
  {
    s[..|s| - TrailingWhitespace(s)]
  }

  /** `str::trim`: `s` without its leading and its trailing whitespace. */
  function Trim(s: string): (r: string)
    ensures |r| <= |s|
    ensures r != [] ==> !IsWhitespace(r[0]) && !IsWhitespace(r[|r| - 1])
  {
    TrimEnd(TrimStart(s))
  }

  /** What `trim` keeps is one slice of `s`, starting at index `i`, with only
      whitespace on either side of it. */
  lemma TrimSlice(s: string) returns (i: nat)
    ensures i + |Trim(s)| <= |s| && s == s[..i] + Trim(s) + s[i + |Trim(s)|..]
    ensures AllWhitespace(s[..i]) && AllWhitespace(s[i + |Trim(s)|..])
  {
    var t := TrimStart(s);
    i := |s| - |t|;
    var r := TrimEnd(t);
    var j := i + |r|;
    assert r == s[i..j] && t[|r|..] == s[j..] by {
      SliceOfSlice(s, i, |r|);
    }
    Pieces(s, i, j);
  }

  /** Slicing a suffix of `s` again is slicing `s`. */
  lemma SliceOfSlice(s: string, i: nat, n: nat)
    requires i + n <= |s|
    ensures s[i..][..n] == s[i..i + n] && s[i..][n..] == s[i + n..]
  {
  }

  /** `s` is its three slices at `i` and `j`, put back together. */
  lemma Pieces(s: string, i: nat, j: nat)
    requires i <= j <= |s|
    ensures s == s[..i] + s[i..j] + s[j..]
  {
  }

  /** A string with no whitespace at either end is its own trim. */
  lemma TrimUntrimmed(s: string)
    requires s != [] ==> !IsWhitespace(s[0]) && !IsWhitespace(s[|s| - 1])
    ensures Trim(s) == s
  {
  }

  /** Counting trailing whitespace stops at a non-whitespace character. */
  lemma {:induction false} TrailingAfter(p: string, e: string)
    requires p != [] && !IsWhitespace(p[|p| - 1])
    ensures TrailingWhitespace(p + e) == TrailingWhitespace(e)
    decreases |e|
  {
    if e != [] && IsWhitespace(e[|e| - 1]) {
      assert (p + e)[..|p + e| - 1] == p + e[..|e| - 1];
      TrailingAfter(p, e[..|e| - 1]);
    } else if e == [] {
      assert p + e == p;
    }
  }

  /** Trailing whitespace after a non-whitespace character is trimmed without
      reaching back past that character. */
  lemma TrimEndAfter(p: string, e: string)
    requires p != [] && !IsWhitespace(p[|p| - 1])
    ensures TrimEnd(p + e) == p + TrimEnd(e)
  {
    TrailingAfter(p, e);
    assert (p + e)[..|p| + |e| - TrailingWhitespace(e)] == p + e[..|e| - TrailingWhitespace(e)];
  }

  /** `str::split` on one character, collected: the pieces between the
      separators, so there is always at least one and none holds the separator. */
  function Split(s: string, sep: char): (r: seq<string>)
    ensures |r| >= 1
    ensures forall i :: 0 <= i < |r| ==> sep !in r[i]
    ensures Join(r, sep) == s
    decreases |s|
  {
    if s == [] then [[]]
    else
      var rest := Split(s[1..], sep);
      if s[0] == sep then
        [[]] + rest
      else
        var r := [[s[0]] + rest[0]] + rest[1..];
        assert r[1..] == rest[1..];
        assert Join(r, sep) == s by {
          if |rest| > 1 {
            assert Join(rest, sep) == rest[0] + [sep] + Join(rest[1..], sep);
          }
        }
        r
  }

  /** The pieces joined back together with the separator between them. */
  function Join(parts: seq<string>, sep: char): string
    requires |parts| >= 1
    decreases |parts|
  {
    if |parts| == 1 then parts[0] else parts[0] + [sep] + Join(parts[1..], sep)
  }

  /** Splitting distributes over a separator occurrence. */
  lemma {:induction false} SplitAppend(a: string, b: string, sep: char)
    ensures Split(a + [sep] + b, sep) == Split(a, sep) + Split(b, sep)
    decreases |a|
  {
    if a == [] {
      assert a + [sep] + b == [sep] + b;
      assert ([sep] + b)[1..] == b;
    } else {
      assert (a + [sep] + b)[1..] == a[1..] + [sep] + b;
      SplitAppend(a[1..], b, sep);
    }
  }

  /** A string without the separator is a single piece. */
  lemma {:induction false} SplitWithoutSeparator(a: string, sep: char)
    requires sep !in a
    ensures Split(a, sep) == [a]
    decreases |a|
  {
    if a != [] {
      SplitWithoutSeparator(a[1..], sep);
      assert [a[0]] + a[1..] == a;
    }
  }

  /** Round trip: splitting the join of separator-free pieces gives the pieces back. */
  lemma {:induction false} SplitJoin(parts: seq<string>, sep: char)
    requires |parts| >= 1
    requires forall i :: 0 <= i < |parts| ==> sep !in parts[i]
    ensures Split(Join(parts, sep), sep) == parts
    decreases |parts|
  {
    if |parts| == 1 {
      SplitWithoutSeparator(parts[0], sep);
    } else {
      SplitJoin(parts[1..], sep);
      SplitAppend(parts[0], Join(parts[1..], sep), sep);
      SplitWithoutSeparator(parts[0], sep);
      assert [parts[0]] + parts[1..] == parts;
    }
  }

  predicate IsDigit(c: char) {
    '0' <= c <= '9'
  }

  predicate AllDigits(s: string) {
    forall i :: 0 <= i < |s| ==> IsDigit(s[i])
  }

  function DigitValue(c: char): nat
    requires IsDigit(c)
  {
    (c as int) - ('0' as int)
  }

  function DigitChar(d: nat): (c: char)
    requires d < 10
    ensures IsDigit(c) && DigitValue(c) == d
  {
    ('0' as int + d) as char
  }

  /** The value of a string of decimal digits, most significant first. */
  function DigitsValue(s: string): nat
    requires AllDigits(s)
    decreases |s|
  {
    if s == [] then 0 else DigitsValue(s[..|s| - 1]) * 10 + DigitValue(s[|s| - 1])
  }

  /** Decimal notation of a natural number, without leading zeros. */
  function NatToString(n: nat): (r: string)
    ensures r != [] && AllDigits(r) && DigitsValue(r) == n
    ensures r[0] == '0' ==> n == 0
    decreases n
  {
    if n < 10 then [DigitChar(n)]
    else
      var r := NatToString(n / 10) + [DigitChar(n % 10)];
      assert r[..|r| - 1] == NatToString(n / 10);
      r
  }

  /** `Display` for a signed integer, as `format!("{}", x)` prints it. */
  function IntToString(x: int): (r: string)
    ensures r != [] && (IsDigit(r[0]) || r[0] == '-') && IsDigit(r[|r| - 1])
    ensures forall k :: 0 <= k < |r| ==> r[k] != '.' && !IsWhitespace(r[k])
  {
    if x < 0 then "-" + NatToString(-x) else NatToString(x)
  }

  /** `<iN as FromStr>::from_str` for a signed type whose range is `lo..=hi`:
      an optional `+` or `-`, then one or more ASCII digits, with a value in range.
      Anything else (an empty string, a lone sign, a stray character, an
      out-of-range value) is an error. */
  function ParseSigned(s: string, lo: int, hi: int): (r: Option<int>)
    ensures r.Some? ==> lo <= r.value <= hi
  {
    var negative := s != [] && s[0] == '-';
    var digits := if s != [] && (s[0] == '-' || s[0] == '+') then s[1..] else s;
    if digits == [] || !AllDigits(digits) then None
    else
      var value: int := DigitsValue(digits);
      var n := if negative then -value else value;
      if lo <= n <= hi then Some(n) else None
  }

  /** Round trip: parsing what `Display` prints gives the number back. */
  lemma ParseSignedIntToString(x: int, lo: int, hi: int)
    requires lo <= x <= hi
    ensures ParseSigned(IntToString(x), lo, hi) == Some(x)
  {
    if x < 0 {
      assert IntToString(x)[1..] == NatToString(-x);
    }
  }

  /** Inputs on which Rust's integer parsing for `i8` is known to succeed or fail. */
  lemma ParseSignedExamples()
    ensures ParseSigned("+7", -128, 127) == Some(7)
    ensures ParseSigned("007", -128, 127) == Some(7)
    ensures ParseSigned("-128", -128, 127) == Some(-128)
    ensures ParseSigned("128", -128, 127) == None
    ensures ParseSigned("", -128, 127) == None
    ensures ParseSigned("-", -128, 127) == None
    ensures ParseSigned(" 1", -128, 127) == None
  {
    assert DigitsValue("007") == 7 by {
      assert "007"[..2] == "00" && "00"[..1] == "0" && "0"[..0] == "";
    }
    assert DigitsValue("128") == 128 by {
      assert "128"[..2] == "12" && "12"[..1] == "1" && "1"[..0] == "";
    }
    assert "-128"[1..] == "128";
    assert "+7"[1..] == "7";
    assert DigitsValue("7") == 7 by { assert "7"[..0] == ""; }
  }
}

=== FILE: updater.dfy ===
/** The updater binary of src/main.rs: refuse to run outside a MUSHclient
    folder, fetch the master manifest, hash the local tree, compare the two and
    sort the comparison into new, removed, ignored and modified files.

    The directory listing, the HTTP response, the local hashes and the
    comparison come from the operating system, reqwest and the `checksums`
    crate; here they are the arguments of `Run`, and `Run` returns, besides
    its outcome, the list of those external calls it made, in order. */
module Updater {
  import opened Results
  import opened Paths

  /** The constants src/main.rs uses in its run. Its `TARGET_DIR` appears
      only in a message and in comments. Its `VERSION_FILENAME` and
      `MANIFEST_FILENAME` are never used. Its `ALGO` goes to `create_hashes`,
      whose call the model records without the algorithm. */
  const MasterManifestUrl := "https://raw.githubusercontent.com/ChatMUD/chatpack/master/chatpack.update-manifest"
  const Jobs := 2
  const MaxRecursion := 10

  /** Files and directories whose presence marks a MUSHclient folder. */
  const MushDirectoryMarkers: seq<string> := ["MUSHclient.exe", "worlds", "mushclient_prefs.sqlite"]

  /** A hash manifest: relative path to hash, as a `BTreeMap<String, String>`. */
  type Manifest = map<string, string>

  /** `checksums::ops::CompareResult`: the fate of a file present on one side only, or ignored. */
  datatype CompareResult = FileAdded(file: string) | FileRemoved(file: string) | FileIgnored(file: string)

  /** `checksums::ops::CompareFileResult`: the fate of a file present on both sides. */
  datatype CompareFileResult =
    | FileMatches(file: string)
    | FileDiffers(file: string, wasHash: string, newHash: string)

  /** The bucket a `CompareResult` belongs to. */
  datatype Bucket = NewFiles | RemovedFiles | IgnoredFiles

  function BucketOf(r: CompareResult): Bucket {
    match r
    case FileAdded(_) => NewFiles
    case FileRemoved(_) => RemovedFiles
    case FileIgnored(_) => IgnoredFiles
  }

  /** The files of the results that belong to bucket `b`, in input order. */
  function FilesIn(cr: seq<CompareResult>, b: Bucket): (files: seq<string>)
    ensures |files| <= |cr|
    decreases |cr|
  {
    if cr == [] then []
    else
      var last := cr[|cr| - 1];
      FilesIn(cr[..|cr| - 1], b) + (if BucketOf(last) == b then [last.file] else [])
  }

  /** The files of the `FileDiffers` results, in input order. */
  function DifferingFiles(fcr: seq<CompareFileResult>): (files: seq<string>)
    ensures |files| <= |fcr|
    decreases |fcr|
  {
    if fcr == [] then []
    else
      var last := fcr[|fcr| - 1];
      DifferingFiles(fcr[..|fcr| - 1]) + (if last.FileDiffers? then [last.file] else [])
  }

  /** The files the results name, in input order. */
  function FilesOf(cr: seq<CompareResult>): (files: seq<string>)
    ensures |files| == |cr| && forall i :: 0 <= i < |cr| ==> files[i] == cr[i].file
    decreases |cr|
  {
    if cr == [] then [] else FilesOf(cr[..|cr| - 1]) + [cr[|cr| - 1].file]
  }

  /** Every result lands in exactly one of the three buckets: together they
      hold each named file as often as the results name it. */
  lemma {:induction false} BucketsPartition(cr: seq<CompareResult>)
    ensures multiset(FilesIn(cr, NewFiles)) + multiset(FilesIn(cr, RemovedFiles)) + multiset(FilesIn(cr, IgnoredFiles))
            == multiset(FilesOf(cr))
    decreases |cr|
  {
    if cr != [] {
      var init := cr[..|cr| - 1];
      BucketsPartition(init);
      assert FilesOf(cr) == FilesOf(init) + [cr[|cr| - 1].file];
    }
  }

  /** The three buckets together are as long as the results. */
  lemma {:induction false} BucketsCount(cr: seq<CompareResult>)
    ensures |FilesIn(cr, NewFiles)| + |FilesIn(cr, RemovedFiles)| + |FilesIn(cr, IgnoredFiles)| == |cr|
    decreases |cr|
  {
    if cr != [] {
      BucketsCount(cr[..|cr| - 1]);
    }
  }

  /** The bucket of a prefix of the results is a prefix of the bucket. */
  lemma {:induction false} FilesInPrefix(cr: seq<CompareResult>, n: nat, b: Bucket)
    requires n <= |cr|
    ensures |FilesIn(cr[..n], b)| <= |FilesIn(cr, b)|
    ensures FilesIn(cr[..n], b) == FilesIn(cr, b)[..|FilesIn(cr[..n], b)|]
    decreases |cr| - n
  {
    if n < |cr| {
      FilesInPrefix(cr[..|cr| - 1], n, b);
      assert cr[..|cr| - 1][..n] == cr[..n];
    } else {
      assert cr[..n] == cr;
    }
  }

  /** Order is kept: result `i` is, in its own bucket, preceded by exactly the
      files of the earlier results of that bucket. */
  lemma FilesInPosition(cr: seq<CompareResult>, i: nat)
    requires i < |cr|
    ensures |FilesIn(cr[..i], BucketOf(cr[i]))| < |FilesIn(cr, BucketOf(cr[i]))|
    ensures FilesIn(cr, BucketOf(cr[i]))[|FilesIn(cr[..i], BucketOf(cr[i]))|] == cr[i].file
  {
    var b := BucketOf(cr[i]);
    FilesInPrefix(cr, i + 1, b);
    assert cr[..i + 1][..i] == cr[..i];
    assert FilesIn(cr[..i + 1], b) == FilesIn(cr[..i], b) + [cr[i].file];
  }

  /** A file is reported modified exactly when some `FileDiffers` names it. */
  lemma {:induction false} DifferingFilesMembers(fcr: seq<CompareFileResult>, f: string)
    ensures f in DifferingFiles(fcr) <==> exists i :: 0 <= i < |fcr| && fcr[i].FileDiffers? && fcr[i].file == f
    decreases |fcr|
  {
    if fcr != [] {
      var init := fcr[..|fcr| - 1];
      DifferingFilesMembers(init, f);
      if exists i :: 0 <= i < |fcr| && fcr[i].FileDiffers? && fcr[i].file == f {
        var i :| 0 <= i < |fcr| && fcr[i].FileDiffers? && fcr[i].file == f;
        if i < |init| {
          assert init[i] == fcr[i];
        }
      }
      if exists i :: 0 <= i < |init| && init[i].FileDiffers? && init[i].file == f {
        var i :| 0 <= i < |init| && init[i].FileDiffers? && init[i].file == f;
        assert fcr[i] == init[i];
      }
    }
  }

  /** The modified list of a prefix of the results is a prefix of the modified list. */
  lemma {:induction false} DifferingFilesPrefix(fcr: seq<CompareFileResult>, n: nat)
    requires n <= |fcr|
    ensures |DifferingFiles(fcr[..n])| <= |DifferingFiles(fcr)|
    ensures DifferingFiles(fcr[..n]) == DifferingFiles(fcr)[..|DifferingFiles(fcr[..n])|]
    decreases |fcr| - n
  {
    if n < |fcr| {
      DifferingFilesPrefix(fcr[..|fcr| - 1], n);
      assert fcr[..|fcr| - 1][..n] == fcr[..n];
    } else {
      assert fcr[..n] == fcr;
    }
  }

  /** Order is kept: a `FileDiffers` result `i` is, in the modified list,
      preceded by exactly the files of the earlier `FileDiffers` results. */
  lemma DifferingFilesPosition(fcr: seq<CompareFileResult>, i: nat)
    requires i < |fcr| && fcr[i].FileDiffers?
    ensures |DifferingFiles(fcr[..i])| < |DifferingFiles(fcr)|
    ensures DifferingFiles(fcr)[|DifferingFiles(fcr[..i])|] == fcr[i].file
  {
    DifferingFilesPrefix(fcr, i + 1);
    assert fcr[..i + 1][..i] == fcr[..i];
    assert DifferingFiles(fcr[..i + 1]) == DifferingFiles(fcr[..i]) + [fcr[i].file];
  }

  /** The positions of the `FileDiffers` results. */
  function DifferingPositions(fcr: seq<CompareFileResult>): set<nat> {
    set i: nat | i < |fcr| && fcr[i].FileDiffers?
  }

  /** The modified count the summary prints is the number of `FileDiffers` results. */
  lemma {:induction false} DifferingFilesCount(fcr: seq<CompareFileResult>)
    ensures |DifferingFiles(fcr)| == |DifferingPositions(fcr)|
    decreases |fcr|
  {
    if fcr != [] {
      var n := |fcr| - 1;
      var init := fcr[..n];
      DifferingFilesCount(init);
      var earlier := DifferingPositions(init);
      assert n !in earlier;
      if fcr[n].FileDiffers? {
        assert DifferingPositions(fcr) == earlier + {n};
      } else {
        assert DifferingPositions(fcr) == earlier;
      }
    } else {
      assert DifferingPositions(fcr) == {};
    }
  }

  /** `FileMatches` results contribute nothing: when every file matches, no file is modified. */
  lemma {:induction false} AllMatchNoneModified(fcr: seq<CompareFileResult>)
    requires forall i :: 0 <= i < |fcr| ==> fcr[i].FileMatches?
    ensures DifferingFiles(fcr) == []
    decreases |fcr|
  {
    if fcr != [] {
      AllMatchNoneModified(fcr[..|fcr| - 1]);
    }
  }

  /** True when one of the markers, joined to `cwd`, is among the entries. */
  predicate MarkerPresent(cwd: Path, entries: seq<Path>) {
    exists m :: m in MushDirectoryMarkers && Child(cwd, m) in entries
  }

  /** The marker loop: every marker is looked up, and `marker_found` is raised
      when one is found. */
  method FindMarker(cwd: Path, entries: seq<Path>) returns (markerFound: bool)
    ensures markerFound <==> MarkerPresent(cwd, entries)
  {
    markerFound := false;
    for i := 0 to |MushDirectoryMarkers|
      invariant markerFound <==> exists j :: 0 <= j < i && Child(cwd, MushDirectoryMarkers[j]) in entries
    {
      var ePath := Child(cwd, MushDirectoryMarkers[i]);
      if ePath in entries {
        markerFound := true;
      }
    }
  }

  /** The two loops over the comparison output: each `CompareResult` is pushed
      to the bucket of its kind, each `FileDiffers` to `modified_files`, each
      `FileMatches` nowhere. */
  method SortResults(cr: seq<CompareResult>, fcr: seq<CompareFileResult>)
    returns (newFiles: seq<string>, modifiedFiles: seq<string>, ignoredFiles: seq<string>, removedFiles: seq<string>)
    ensures newFiles == FilesIn(cr, NewFiles)
    ensures removedFiles == FilesIn(cr, RemovedFiles)
    ensures ignoredFiles == FilesIn(cr, IgnoredFiles)
    ensures modifiedFiles == DifferingFiles(fcr)
  {
    newFiles, modifiedFiles, ignoredFiles, removedFiles := [], [], [], [];
    for i := 0 to |cr|
      invariant newFiles == FilesIn(cr[..i], NewFiles)
      invariant removedFiles == FilesIn(cr[..i], RemovedFiles)
      invariant ignoredFiles == FilesIn(cr[..i], IgnoredFiles)
    {
      assert cr[..i + 1][..i] == cr[..i];
      match cr[i]
      case FileAdded(file) => newFiles := newFiles + [file];
      case FileRemoved(file) => removedFiles := removedFiles + [file];
      case FileIgnored(file) => ignoredFiles := ignoredFiles + [file];
    }
    assert cr[..|cr|] == cr;
    for i := 0 to |fcr|
      invariant modifiedFiles == DifferingFiles(fcr[..i])
    {
      assert fcr[..i + 1][..i] == fcr[..i];
      match fcr[i]
      case FileMatches(_) =>
      case FileDiffers(file, _, _) => modifiedFiles := modifiedFiles + [file];
    }
    assert fcr[..|fcr|] == fcr;
  }

  /** `read_dir` of the working directory: the entry paths, or a failure of
      the listing or of one of its entries. */
  datatype Listing = Entries(paths: seq<Path>) | ListingFailed

  /** What `r_client.get(..).send()` and `resp.json()` gave. */
  datatype Fetch = SendFailed | Response(status: int, body: Option<Manifest>)

  /** What `compare_hashes` returned. */
  datatype Comparison = Compared(cr: seq<CompareResult>, fcr: seq<CompareFileResult>) | HashLengthsDiffer

  /** The external calls a run makes. */
  datatype Call =
    | ListDirectory(dir: Path)
    | FetchManifest(url: string)
    | CreateHashes(root: Path, ignores: set<string>, maxRecursion: nat, jobs: nat)
    | CompareHashes(local: Manifest, remote: Manifest)

  /** The panics of src/main.rs. */
  datatype Fatal = CannotListDirectory | ManifestUnreachable | ManifestStatus(status: int) | ManifestMalformed | ComparisonFailed

  /** How a run ends: outside a MUSHclient folder (the early return), on a
      fatal error, or with the summary line's three counts. */
  datatype Outcome =
    | NotMushFolder
    | Failed(reason: Fatal)
    | Summary(newCount: nat, modifiedCount: nat, removedCount: nat)

  /** `StatusCode::is_success`: a 2xx status. */
  predicate IsSuccess(status: int) {
    200 <= status < 300
  }

  /** The master manifest the response yields, or why it yields none. */
  function FetchedManifest(fetch: Fetch): (r: Result<Manifest, Fatal>)
    ensures r.Ok? <==> fetch.Response? && IsSuccess(fetch.status) && fetch.body.Some?
    ensures r.Ok? ==> r.value == fetch.body.value
  {
    match fetch
    case SendFailed => Err(ManifestUnreachable)
    case Response(status, body) =>
      if !IsSuccess(status) then Err(ManifestStatus(status))
      else if body.None? then Err(ManifestMalformed)
      else Ok(body.value)
  }

  /** `main` of src/main.rs, from the marker check to the summary. */
  method Run(cwd: Path, listing: Listing, fetch: Fetch, localHashes: Manifest, comparison: Comparison)
    returns (outcome: Outcome, calls: seq<Call>)
    ensures |calls| >= 1 && calls[0] == ListDirectory(cwd)
    ensures listing.ListingFailed? ==> outcome == Failed(CannotListDirectory) && calls == [ListDirectory(cwd)]
    ensures listing.Entries? && !MarkerPresent(cwd, listing.paths) ==> outcome == NotMushFolder && calls == [ListDirectory(cwd)]
    ensures outcome == NotMushFolder <==> listing.Entries? && !MarkerPresent(cwd, listing.paths)
    ensures listing.Entries? && MarkerPresent(cwd, listing.paths) ==>
              |calls| >= 2 && calls[1] == FetchManifest(MasterManifestUrl)
              && (FetchedManifest(fetch).Err? ==> outcome == Failed(FetchedManifest(fetch).error) && |calls| == 2)
              && (FetchedManifest(fetch).Ok? ==>
                    calls == [ListDirectory(cwd), FetchManifest(MasterManifestUrl),
                              CreateHashes(cwd, {}, MaxRecursion, Jobs),
                              CompareHashes(localHashes, FetchedManifest(fetch).value)]
                    && outcome == match comparison
                                  case HashLengthsDiffer => Failed(ComparisonFailed)
                                  case Compared(cr, fcr) =>
                                    Summary(|FilesIn(cr, NewFiles)|, |DifferingFiles(fcr)|, |FilesIn(cr, RemovedFiles)|))
    ensures outcome.Summary? ==> comparison.Compared?
  {
    calls := [ListDirectory(cwd)];
    if listing.ListingFailed? {
      return Failed(CannotListDirectory), calls;
    }
    var markerFound := FindMarker(cwd, listing.paths);
    if !markerFound {
      return NotMushFolder, calls;
    }
    calls := calls + [FetchManifest(MasterManifestUrl)];
    var masterManifest: Manifest;
    match fetch {
      case SendFailed =>
        return Failed(ManifestUnreachable), calls;
      case Response(status, body) =>
        if !IsSuccess(status) {
          return Failed(ManifestStatus(status)), calls;
        }
        if body.None? {
          return Failed(ManifestMalformed), calls;
        }
        masterManifest := body.value;
    }
    var ignores: set<string> := {};
    calls := calls + [CreateHashes(cwd, ignores, MaxRecursion, Jobs)];
    calls := calls + [CompareHashes(localHashes, masterManifest)];
    match comparison {
      case HashLengthsDiffer =>
        return Failed(ComparisonFailed), calls;
      case Compared(cr, fcr) =>
        var newFiles, modifiedFiles, ignoredFiles, removedFiles := SortResults(cr, fcr);
        outcome := Summary(|newFiles|, |modifiedFiles|, |removedFiles|);
    }
  }
}

=== FILE: versions.dfy ===
/** The `year.month.day.patch` version value of src/version.rs: a fixed-width
    record of one i16 and three i8 fields, parsed from and printed to a dotted
    string, and bumped against the current date. The clock is not read: the
    current date is an argument. */
module Versions {
  import opened Results
  import opened Text

  newtype I16 = x: int | -0x8000 <= x < 0x8000
  newtype I8 = x: int | -0x80 <= x < 0x80

  const I16Min := -0x8000
  const I16Max := 0x7FFF
  const I8Min := -0x80
  const I8Max := 0x7F

  datatype Version = Version(year: I16, month: I8, day: I8, patch: I8)

  /** The date as chrono reports it: `year()` is an i32, `month()` and `day()` are u32. */
  datatype Date = Date(year: int, month: int, day: int)

  /** Why `from_string` or `update` would panic: a field index beyond the split
      (`elements[i]` out of bounds), a field that does not parse as its integer
      type, or `patch + 1` overflowing i8. */
  datatype VersionError = MissingField(index: nat) | InvalidField(index: nat) | PatchOverflow

  /** `as i16`: keeps the low 16 bits, read as two's complement. */
  function WrapI16(x: int): (r: I16)
    ensures (r as int - x) % 0x1_0000 == 0
    ensures I16Min <= x <= I16Max ==> r as int == x
  {
    ((x + 0x8000) % 0x1_0000 - 0x8000) as I16
  }

  /** `as i8`: keeps the low 8 bits, read as two's complement. */
  function WrapI8(x: int): (r: I8)
    ensures (r as int - x) % 0x100 == 0
    ensures I8Min <= x <= I8Max ==> r as int == x
  {
    ((x + 0x80) % 0x100 - 0x80) as I8
  }

  /** The dotted fields of a version string: the whole string trimmed, then split on `.`. */
  function Elements(text: string): (elements: seq<string>)
    ensures |elements| >= 1
  {
    Split(Trim(text), '.')
  }

  /** Field `i`, trimmed and parsed as an integer in `lo..=hi`. */
  function Field(elements: seq<string>, i: nat, lo: int, hi: int): (r: Result<int, VersionError>)
    ensures r.Ok? ==> i < |elements| && ParseSigned(Trim(elements[i]), lo, hi) == Some(r.value)
    ensures r.Err? ==> r.error == (if i < |elements| then InvalidField(i) else MissingField(i))
    ensures r.Err? && i < |elements| ==> ParseSigned(Trim(elements[i]), lo, hi) == None
  {
    if i >= |elements| then Err(MissingField(i))
    else match ParseSigned(Trim(elements[i]), lo, hi)
      case None => Err(InvalidField(i))
      case Some(n) => Ok(n)
  }

  /** The range of field `i`: the year is an i16, the others are i8. */
  function FieldMin(i: nat): int {
    if i == 0 then I16Min else I8Min
  }

  function FieldMax(i: nat): int {
    if i == 0 then I16Max else I8Max
  }

  /** The four fields read from the split elements, in the order year, month,
      day, patch; elements after the fourth are not looked at. The first field
      that is missing or does not parse is the error. */
  function FromElements(elements: seq<string>): (r: Result<Version, VersionError>)
    requires |elements| >= 1
    ensures r.Ok? ==> |elements| >= 4
                      && ParseSigned(Trim(elements[0]), I16Min, I16Max) == Some(r.value.year as int)
                      && ParseSigned(Trim(elements[1]), I8Min, I8Max) == Some(r.value.month as int)
                      && ParseSigned(Trim(elements[2]), I8Min, I8Max) == Some(r.value.day as int)
                      && ParseSigned(Trim(elements[3]), I8Min, I8Max) == Some(r.value.patch as int)
    ensures r.Err? ==> (|elements| < 4 && r.error == MissingField(|elements|))
                       || (r.error.InvalidField? && r.error.index < 4 && r.error.index < |elements|
                           && ParseSigned(Trim(elements[r.error.index]), FieldMin(r.error.index), FieldMax(r.error.index)).None?)
  {
    var year :- Field(elements, 0, I16Min, I16Max);
    var month :- Field(elements, 1, I8Min, I8Max);
    var day :- Field(elements, 2, I8Min, I8Max);
    var patch :- Field(elements, 3, I8Min, I8Max);
    Ok(Version(year as I16, month as I8, day as I8, patch as I8))
  }

  /** `Version::from_string`: the whole string trimmed, split on `.`, and the
      first four fields read. */
  function FromString(text: string): (r: Result<Version, VersionError>)
    ensures r.Ok? ==> |Elements(text)| >= 4
    ensures r.Err? ==> !r.error.PatchOverflow?
  {
    FromElements(Elements(text))
  }

  /** The four fields printed in decimal, in the order year, month, day, patch. */
  function Fields(v: Version): (fields: seq<string>)
    ensures |fields| == 4
  {
    [IntToString(v.year as int), IntToString(v.month as int), IntToString(v.day as int), IntToString(v.patch as int)]
  }

  /** `Version::to_string`: `format!("{}.{}.{}.{}", year, month, day, patch)`. */
  function ToString(v: Version): string {
    Join(Fields(v), '.')
  }

  /** What `to_string` prints is the four decimal fields and nothing else:
      splitting it on `.` gives them back in order, and it has no whitespace to trim. */
  lemma ToStringFields(v: Version)
    ensures Split(ToString(v), '.') == Fields(v)
    ensures ToString(v) != [] && Trim(ToString(v)) == ToString(v)
    ensures !IsWhitespace(ToString(v)[0]) && ToString(v)[0] != '.'
    ensures !IsWhitespace(ToString(v)[|ToString(v)| - 1])
  {
    var f := Fields(v);
    SplitJoin(f, '.');
    var s := ToString(v);
    assert f[1..][1..] == f[2..] && f[2..][1..] == f[3..];
    assert Join(f[3..], '.') == f[3];
    assert Join(f[2..], '.') == f[2] + ['.'] + f[3];
    assert s == f[0] + ['.'] + (f[1] + ['.'] + (f[2] + ['.'] + f[3]));
    assert s[0] == f[0][0];
    assert s[|s| - 1] == f[3][|f[3]| - 1];
    TrimUntrimmed(s);
  }

  /** A field holding the decimal notation of an in-range number reads back as it. */
  lemma FieldOfPrinted(elements: seq<string>, i: nat, x: int, lo: int, hi: int)
    requires i < |elements| && elements[i] == IntToString(x) && lo <= x <= hi
    ensures Field(elements, i, lo, hi) == Ok(x)
  {
    TrimUntrimmed(elements[i]);
    ParseSignedIntToString(x, lo, hi);
  }

  /** Four fields that each read back as a number give the version of those numbers. */
  lemma FromElementsOfFields(f: seq<string>, year: int, month: int, day: int, patch: int)
    requires I16Min <= year <= I16Max && I8Min <= month <= I8Max && I8Min <= day <= I8Max && I8Min <= patch <= I8Max
    requires |f| == 4
    requires Field(f, 0, I16Min, I16Max) == Ok(year) && Field(f, 1, I8Min, I8Max) == Ok(month)
    requires Field(f, 2, I8Min, I8Max) == Ok(day) && Field(f, 3, I8Min, I8Max) == Ok(patch)
    ensures FromElements(f) == Ok(Version(year as I16, month as I8, day as I8, patch as I8))
  {
  }

  /** Reading the printed fields back gives the version. */
  lemma FromElementsFields(v: Version)
    ensures FromElements(Fields(v)) == Ok(v)
  {
    var f := Fields(v);
    FieldOfPrinted(f, 0, v.year as int, I16Min, I16Max);
    FieldOfPrinted(f, 1, v.month as int, I8Min, I8Max);
    FieldOfPrinted(f, 2, v.day as int, I8Min, I8Max);
    FieldOfPrinted(f, 3, v.patch as int, I8Min, I8Max);
    FromElementsOfFields(f, v.year as int, v.month as int, v.day as int, v.patch as int);
  }

  /** Elements after the fourth do not change what is read. */
  lemma FromElementsPrefix(e1: seq<string>, e2: seq<string>)
    requires |e1| >= 4 && |e2| >= 4 && e1[..4] == e2[..4]
    ensures FromElements(e1) == FromElements(e2)
  {
    assert e1[0] == e2[0] && e1[1] == e2[1] && e1[2] == e2[2] && e1[3] == e2[3] by {
      assert e1[..4][0] == e1[0] && e1[..4][1] == e1[1] && e1[..4][2] == e1[2] && e1[..4][3] == e1[3];
      assert e2[..4][0] == e2[0] && e2[..4][1] == e2[1] && e2[..4][2] == e2[2] && e2[..4][3] == e2[3];
    }
    assert Field(e1, 0, I16Min, I16Max) == Field(e2, 0, I16Min, I16Max);
    assert Field(e1, 1, I8Min, I8Max) == Field(e2, 1, I8Min, I8Max);
    assert Field(e1, 2, I8Min, I8Max) == Field(e2, 2, I8Min, I8Max);
    assert Field(e1, 3, I8Min, I8Max) == Field(e2, 3, I8Min, I8Max);
  }

  /** Round trip: every version value reads back from what it prints. */
  lemma FromStringToString(v: Version)
    ensures FromString(ToString(v)) == Ok(v)
  {
    var s := ToString(v);
    assert Elements(s) == Fields(v) by {
      ToStringFields(v);
    }
    FromElementsFields(v);
  }

  /** Fields after the fourth are ignored, whatever they hold. */
  lemma FromStringExtraFields(v: Version, extra: string)
    ensures FromString(ToString(v) + "." + extra) == Ok(v)
  {
    var s := ToString(v);
    ToStringFields(v);
    var text := s + "." + extra;
    assert text[0] == s[0];
    assert TrimStart(text) == text;
    TrimEndAfter(s + ".", extra);
    assert Trim(text) == s + ['.'] + TrimEnd(extra);
    SplitAppend(s, TrimEnd(extra), '.');
    var elements := Elements(text);
    assert elements == Fields(v) + Split(TrimEnd(extra), '.');
    assert elements[..4] == Fields(v);
    FromElementsPrefix(elements, Fields(v));
    FromElementsFields(v);
  }

  /** True when the version's date fields equal the date cast as `update` casts it. */
  predicate SameDate(v: Version, today: Date) {
    v.year == WrapI16(today.year) && v.month == WrapI8(today.month) && v.day == WrapI8(today.day)
  }

  /** `Version::new`: today's date with patch number 1. */
  function New(today: Date): (r: Version)
    ensures r.patch == 1 && SameDate(r, today)
    ensures I16Min <= today.year <= I16Max ==> r.year as int == today.year
    ensures 1 <= today.month <= 12 ==> r.month as int == today.month
    ensures 1 <= today.day <= 31 ==> r.day as int == today.day
  {
    Version(WrapI16(today.year), WrapI8(today.month), WrapI8(today.day), 1)
  }

  /** What `update` leaves in the version: on the stored date the next patch
      number (an overflow past 127 is the error), on any other date today's
      date with patch 1. */
  function Updated(v: Version, today: Date): (r: Result<Version, VersionError>)
    ensures r.Ok? ==> SameDate(r.value, today)
    ensures r.Err? <==> SameDate(v, today) && v.patch as int == I8Max
    ensures r.Err? ==> r.error == PatchOverflow
    ensures SameDate(v, today) && r.Ok? ==> r.value == v.(patch := r.value.patch) && r.value.patch as int == v.patch as int + 1
    ensures !SameDate(v, today) ==> r == Ok(New(today))
  {
    if SameDate(v, today) then
      if v.patch == I8Max as I8 then Err(PatchOverflow) else Ok(v.(patch := v.patch + 1))
    else
      Ok(New(today))
  }

  /** `Version::update`, field by field: each date field that differs from
      today's is overwritten and raises the `date_updated` flag; then the patch
      number is reset to 1 if the flag is up and incremented otherwise. */
  method Update(v: Version, today: Date) returns (r: Result<Version, VersionError>)
    ensures r == Updated(v, today)
  {
    var year, month, day, patch := v.year, v.month, v.day, v.patch;
    var currentYear, currentMonth, currentDay := WrapI16(today.year), WrapI8(today.month), WrapI8(today.day);
    var dateUpdated := false;
    if year != currentYear {
      year := currentYear;
      dateUpdated := true;
    }
    if month != currentMonth {
      month := currentMonth;
      dateUpdated := true;
    }
    if day != currentDay {
      day := currentDay;
      dateUpdated := true;
    }
    if !dateUpdated {
      if patch == I8Max as I8 {
        return Err(PatchOverflow);
      }
      patch := patch + 1;
    } else {
      patch := 1;
    }
    r := Ok(Version(year, month, day, patch));
  }
}
